=== FILE: README.md ===
# gpu_watch in Dafny

A model of the decision logic of `gpu_watch.py`, a command-line monitor that
polls `nvidia-smi`, decides which GPUs are idle, raises an alert and
optionally sends it by e-mail. The model covers:

- the telemetry parser `_parse_nvidia_smi`. The output is stripped and split
  into lines. Each line is split on commas and its fields are stripped. A line
  without exactly four fields is skipped, and the first four-field line with a
  field that is not an integer raises `ValueError`.
- the idleness test `_is_gpu_idle` and the order-preserving idle filter;
- the `idle_ids` string, `",".join` of the idle indices;
- recipient normalisation:
  `[r.strip() for r in to.split(",") if r.strip()]`;
- the completeness guard on the SMTP settings;
- the arguments handed to `_send_email`;
- one pass through the `while True` loop of `main`;
- a finite run of such passes.

Python's string operations are written out in Dafny over `seq<char>`:

- `str.strip()` with Python's whitespace set;
- `str.splitlines()` with its line-boundary set and `\r\n` as one boundary;
- `str.split(",")` and `str.join`;
- `str(int)`;
- the decimal subset of `int(str)`.

Python integers are unbounded, and so are Dafny's `int`.

Running `nvidia-smi` and delivering mail are inputs of the model. A cycle
receives either the command's output or its failure (`Watch.Reading`), and
a flag saying whether the mail transport delivered (`Watch.Poll`). The
resolved settings (`Watch.Config`, `Alerting.SmtpSettings`) are what
`argparse` and the environment fallback produce.

The modules follow the program's structure:

| module | contents |
|---|---|
| `Results` | `Option` and `Result` |
| `Seqs` | positions and filtering, split/join, and a generic parse loop `Collect` that can skip, keep or raise |
| `Text` | strip and splitlines |
| `Decimal` | `str` and `int` on integers |
| `Telemetry` | the parser and its inverse, the `nvidia-smi` CSV rendering |
| `Idle` | the idle test, the idle filter and `idle_ids` |
| `Alerting` | recipients, the SMTP guard and the mail request |
| `Loops` | a generic run-until-stop loop |
| `Watch` | one cycle and a finite run of cycles |

## Model

| member | source | states |
|---|---|---|
| `Text.Strip` | gpu_watch.py:24-25 | The stripped text has no Python whitespace at either end. |
| `Text.StripKeepsInfix` | gpu_watch.py:24-25 | `strip` keeps a contiguous infix of its input and removes only whitespace on both sides of it. |
| `Text.StripPadded` | gpu_watch.py:24-25 | Stripping whitespace padding off an already stripped text gives that text back. |
| `Text.SplitLines` | gpu_watch.py:24 | No line produced by `splitlines` contains a line boundary, and there are never more lines than characters. |
| `Text.SplitLinesJoin` | gpu_watch.py:24 | `splitlines` of newline-joined lines gives the same lines back, provided the lines have no line boundary and the last one is non-empty. |
| `Seqs.Join` | gpu_watch.py:114 | Python's `sep.join(parts)`: the parts in order, with the separator between neighbours. It has no contract of its own. `Seqs.Split` and `Seqs.SplitJoin` state that splitting is its inverse. |
| `Seqs.Split` | gpu_watch.py:25 | `split(",")` always gives at least one piece, no piece contains the separator, and joining the pieces with the separator restores the input. |
| `Seqs.SplitCount` | gpu_watch.py:25-26 | There is exactly one piece more than there are separators in the input. |
| `Seqs.SplitJoin` | gpu_watch.py:25 | Splitting a join of separator-free parts gives the parts back. |
| `Seqs.Filter` | gpu_watch.py:103 | A list comprehension with a condition keeps exactly the elements that pass, each one taken from its position in the input, in ascending order. |
| `Seqs.FilterMembers` | gpu_watch.py:103 | An element is in the filtered list if and only if it is in the input and passes the test. |
| `Seqs.Collect` | gpu_watch.py:24-36 | The parse loop succeeds exactly when no element raises. On failure it reports the first element that raises, with that element's error. |
| `Seqs.CollectKept` | gpu_watch.py:24-36 | On success, value `k` is the one kept from the `k`-th element that was not skipped. |
| `Decimal.Str` | gpu_watch.py:114 | `str(n)` is non-empty, all digits apart from an optional leading minus, and ends in a digit. |
| `Decimal.ParseInt` | gpu_watch.py:28 | A text accepted by `int` is non-empty and ends in a digit. Every character is a digit or `_`, except that the first may be a sign, so no comma or space gets through. |
| `Decimal.ParseIntUnderscores` | gpu_watch.py:28 | In a text accepted by `int`, every `_` sits between two digits: a leading, trailing, doubled or sign-adjacent underscore (`"_1"`, `"1_"`, `"1__0"`, `"+_1"`) is refused. |
| `Decimal.ParseDigits` | gpu_watch.py:28 | `int` accepts every non-empty run of ASCII digits and gives its decimal value, leading zeros included. |
| `Decimal.ParsePlus` | gpu_watch.py:28 | A `+` before a run of digits is accepted and leaves the value unchanged. |
| `Decimal.ParseMinus` | gpu_watch.py:28 | A `-` before a run of digits is accepted and negates the value. |
| `Decimal.ParseUnderscore` | gpu_watch.py:28 | One `_` between two runs of digits is accepted and ignored: `int("1_000") == int("1000")`. |
| `Decimal.ParseStr` | gpu_watch.py:28 | `int(str(n)) == n` for every integer `n`. |
| `Telemetry.SmiLines` | gpu_watch.py:24 | The lines the parser reads are `output.strip().splitlines()`. None of them holds a line boundary, and there are never more lines than characters. |
| `Telemetry.Fields` | gpu_watch.py:25 | There is one field per comma-separated piece of the line, and no field has whitespace at either end. |
| `Telemetry.HasFourFields` | gpu_watch.py:26 | The test `len(parts) != 4` that decides whether a line is skipped. |
| `Telemetry.FourFieldsIffThreeCommas` | gpu_watch.py:25-26 | A line has the four fields the parser wants exactly when it holds three commas, so an empty line never does. |
| `Telemetry.DecodeFields` | gpu_watch.py:28 | `map(int, parts)` consumed in order succeeds exactly when every field is an integer. On success it gives each field's value. On failure it reports the first refused field. |
| `Telemetry.DecodeRecord` | gpu_watch.py:28-36 | A record is built exactly when all four fields decode, with the values in column order. Otherwise the error is a refused field of the line. |
| `Telemetry.LineStep` | gpu_watch.py:25-36 | A line is skipped exactly when it has other than four fields. A kept line's record holds its decoded values. A raise names one of the line's fields that `int` refuses. |
| `Telemetry.BadFourFieldLineFails` | gpu_watch.py:26-28 | A four-field line with a field that `int` refuses makes the whole parse fail, at that line or at an earlier one, whatever the other lines hold. |
| `Telemetry.ParseLines` | gpu_watch.py:24-37 | Parsing succeeds exactly when no line raises. Record `k` comes from the `k`-th four-field line. An error names the first failing line and its field. |
| `Telemetry.ParseSmi` | gpu_watch.py:22-37 | There are never more records than lines, and a reported error line is a line of the stripped output. |
| `Telemetry.RecordsComeFromFourFieldLines` | gpu_watch.py:24-27 | When parsing succeeds, a line yields a record if and only if it has four fields. |
| `Telemetry.RecordsInLineOrder` | gpu_watch.py:23-37 | Records appear in the order of the lines they come from. |
| `Telemetry.BlankLineSkipped` | gpu_watch.py:24-27 | A whitespace-only line is skipped. |
| `Telemetry.ParseRendered` | gpu_watch.py:14-37 | Parsing what `nvidia-smi --format=csv,noheader,nounits` prints for a list of GPUs gives that list back. |
| `Idle.IsIdle` | gpu_watch.py:40-41 | `_is_gpu_idle`: utilisation at or below its threshold and memory used at or below its threshold, both inclusive. |
| `Idle.IdleGpus` | gpu_watch.py:103 | The idle list holds exactly the GPUs that `_is_gpu_idle` accepts, in their original order. |
| `Idle.SomeIdleIff` | gpu_watch.py:103 | The idle list is non-empty if and only if some parsed GPU is idle. |
| `Idle.IdleListMonotone` | gpu_watch.py:40-41 | Raising either threshold never drops a GPU from the idle list: the old list is a subsequence of the new one. |
| `Idle.IdleIds` | gpu_watch.py:114 | `idle_ids`: the decimal indices of the idle GPUs, in order, joined by commas with no spaces. |
| `Idle.IdleIdsRoundTrip` | gpu_watch.py:114 | `idle_ids` splits on commas into one piece per idle GPU, in order, and each piece reads back as that GPU's index. |
| `Alerting.Recipients` | gpu_watch.py:127 | There are never more recipients than comma-separated pieces, and no recipient is empty. |
| `Alerting.RecipientsAreStrippedPieces` | gpu_watch.py:127 | Recipient `k` is the stripped `k`-th non-blank piece of the setting, the pieces used ascend, and every non-blank piece is used. |
| `Alerting.RecipientsNormalised` | gpu_watch.py:127 | Every recipient is non-empty, stripped and comma-free. |
| `Alerting.RecipientsOfToHeader` | gpu_watch.py:58 | Normalising the To header built from a normalised recipient list gives that list back. |
| `Alerting.RecipientsIdempotent` | gpu_watch.py:127 | Normalising twice is the same as normalising once. |
| `Alerting.SmtpComplete` | gpu_watch.py:129 | The mail guard: host, sender and recipient list all non-empty, and the port non-zero. |
| `Alerting.GpuLine` | gpu_watch.py:132 | The status line of one GPU, `GPU i: util=u% mem=m/t MB`. |
| `Alerting.StatusBody` | gpu_watch.py:131-133 | The mail body: the status lines of all parsed GPUs, idle or not, joined by newlines. |
| `Alerting.GpuLineNoBreak` | gpu_watch.py:132 | A status line never contains a line boundary. |
| `Alerting.StatusBodyLines` | gpu_watch.py:131-133 | The mail body splits into one status line per GPU, in order. |
| `Alerting.PlanEmail` | gpu_watch.py:129-151 | Mail is sent exactly when host, port, sender and recipients are all present. The request carries host, port, sender and the SSL/STARTTLS flags exactly as configured. It also carries the normalised recipients, the subject with the idle ids and the status body. User and password are passed, unchanged, only when non-empty. |
| `Watch.EmailStep` | gpu_watch.py:121-151 | With e-mail disabled nothing is attempted. An attempt is made exactly when e-mail is enabled and the SMTP settings are complete, and it carries the planned request and the transport's outcome. |
| `Watch.RunCycle` | gpu_watch.py:95-158 | A cycle fails on telemetry exactly when `nvidia-smi` fails, and fails on parsing exactly when the output does not parse (details below the table). |
| `Watch.Ending` | gpu_watch.py:98-156 | How a cycle ends `main`. A failed `nvidia-smi` returns 2, and a parse error escapes as an exception. A checked cycle ends only when the loop chose an exit code: 0 after an alert under `--once`, 1 without one. Otherwise the loop goes on. |
| `Watch.AlertIffSomeIdle` | gpu_watch.py:103-113 | After a successful parse, an alert is raised if and only if some GPU is idle. |
| `Watch.OnceExitCodes` | gpu_watch.py:96-156 | With `--once`, a cycle whose external calls return always ends `main`. It returns 2 when `nvidia-smi` fails, raises the parse error when the output does not parse, returns 0 exactly when some GPU is idle, and returns 1 exactly when none is. |
| `Watch.ContinuousEndsOnlyOnFatal` | gpu_watch.py:95-158 | Without `--once`, a cycle ends `main` if and only if the reading is fatal, meaning a telemetry failure or a parse error. |
| `Watch.DeliveryIrrelevant` | gpu_watch.py:134-149 | Whether mail delivery succeeds changes neither how `main` ends nor the parsed GPUs, the idle list, the exit code or whether an alert is raised. |
| `Watch.StopsAtFirstFatal` | gpu_watch.py:95-158 | A run that stops exactly on fatal readings ends if and only if some poll is fatal. |
| `Watch.Monitor` | gpu_watch.py:95-158 | A finite run of cycles (details below the table). |
| `Loops.RunUntil` | gpu_watch.py:95-158 | Every input is handled on its own. The loop stops at the first step that asks to stop, and otherwise consumes every input. |

`Watch.RunCycle` also states the following for a cycle whose output parses:

- its GPUs are the parsed list;
- its idle list is the idle subsequence of those GPUs;
- an alert is raised exactly when the idle list is non-empty, and it carries the `idle_ids` of the idle list;
- an attempted mail implies that e-mail is enabled and the SMTP settings are complete;
- the alert's e-mail action is `Watch.EmailStep` applied to the parsed GPUs and the alert's `idle_ids`. So with e-mail enabled and complete settings, delivery is attempted with the normalised recipients and the status body of every GPU;
- the exit is 0 or 1 under `--once`, and absent otherwise.

`Watch.Monitor` states the following about a finite run:

- cycle `k` is the cycle of poll `k`;
- the run stops at the first cycle that ends `main`, or when the polls run out;
- with `--once`, exactly one cycle runs, given that its external calls return;
- without `--once`, the run ends if and only if some poll is fatal.

## Left out

- Running `nvidia-smi` (`_run_nvidia_smi`, `subprocess.check_output`) is not modelled. A cycle receives the output text, or the fact that the command raised.
- Running `nvidia-smi` and `_send_email` are assumed to return, and console writes are assumed to succeed. The source sets no timeout on `subprocess.check_output` (gpu_watch.py:19) or on the SMTP connection (gpu_watch.py:63, gpu_watch.py:68), so a hung call blocks `main` forever, even with `--once`. The writes at gpu_watch.py:99, 106, 109-111, 115 and 151 sit outside any `try`, so one that raises (a `BrokenPipeError` on a closed stdout, say) escapes `main` with none of the exit codes 0, 1 or 2. `Watch.OnceExitCodes`, `Watch.ContinuousEndsOnlyOnFatal` and `Watch.Monitor` hold under these assumptions.
- `_send_email` and `smtplib` are not modelled, including the SSL/STARTTLS/login choices and the message object apart from its To header (`Alerting.ToHeader`). The model stops at the request passed to the transport, plus a flag saying whether delivery raised; `main` catches and prints that exception either way.
- `argparse` and the environment fallback (`args.x or os.getenv(...)`) are not modelled. The settings arrive already resolved, so the defaults 5 and 500 and the `SMTP_SENDER` default to the user are not modelled. The `ValueError` that `int(os.getenv("SMTP_PORT"))` can raise is out of scope.
- Console output is not modelled: the status lines, the JSON dump selected by `--json`, the alert line and the terminal bell. Only the bell's failure is swallowed (gpu_watch.py:116-120); the other writes are assumed to succeed, as the line above says. `GpuLine` is modelled only as the line of the mail body.
- `time.sleep(args.interval)` and the unbounded `while True` loop are not modelled. The loop is modelled as a finite sequence of polls, where one poll is one pass through the loop body.
- The exception that escapes `main` is modelled as `Watch.Termination.Raises` carrying the parse error. This happens when `_parse_nvidia_smi` raises `ValueError`. The interpreter's own exit status in that case is not modelled.
- Decimal.ParseInt: under-approximates Python's `int()`. It accepts an optional sign followed by ASCII digits with single `_` separators; surrounding whitespace only matters for unstripped text, and every field it reads is stripped. Non-ASCII Unicode decimal digits are refused, although Python accepts them. Python's 4300-digit limit on integer/string conversion is not modelled in `int()` or `str()`.
- Strings are sequences of Unicode scalar values, so Python strings holding lone surrogates are not represented.

=== FILE: alerting.dfy ===
/** The e-mail side of an alert: recipient-list normalisation, the check
    that the SMTP configuration is complete, and the message handed to the
    mail transport.  Delivery itself is not modelled. */
module Alerting {

  import opened Results
  import opened Seqs
  import opened Text
  import opened Decimal
  import opened Telemetry

  function NonEmpty(s: string): bool {
    s != []
  }

  /** The comma-separated pieces of the recipient setting, each stripped. */
  function RecipientPieces(to: string): seq<string> {
    Map(Strip, Split(to, ','))
  }

  /** `[r.strip() for r in to.split(",") if r.strip()]`: the stripped pieces
      that are not empty, in their original order (`RecipientsAreStrippedPieces`). */
  function Recipients(to: string): (rs: seq<string>)
    ensures |rs| <= |Split(to, ',')|
    ensures forall k :: 0 <= k < |rs| ==> rs[k] != []
  {
    Filter(RecipientPieces(to), NonEmpty)
  }

  /** The indices of the pieces of `to` that name a recipient. */
  ghost function RecipientSlots(to: string): seq<nat> {
    Positions(RecipientPieces(to), NonEmpty)
  }

  /** Recipient `k` is the stripped piece `RecipientSlots(to)[k]`; the slots
      ascend, and every piece that is not blank has a slot. */
  lemma RecipientsAreStrippedPieces(to: string)
    ensures var rs, ix, pieces := Recipients(to), RecipientSlots(to), Split(to, ',');
      && |rs| == |ix|
      && Increasing(ix)
      && (forall k :: 0 <= k < |rs| ==> ix[k] < |pieces| && rs[k] == Strip(pieces[ix[k]]))
      && (forall i :: 0 <= i < |pieces| && Strip(pieces[i]) != [] ==> i in ix)
  {
    var pieces := Split(to, ',');
    forall i | 0 <= i < |pieces| && Strip(pieces[i]) != []
      ensures i in RecipientSlots(to)
    {
      assert NonEmpty(RecipientPieces(to)[i]);
    }
  }

  /** No recipient is empty, holds a comma, or has whitespace at either end. */
  lemma RecipientsNormalised(to: string)
    ensures Normalised(Recipients(to))
  {
    var rs := Recipients(to);
    RecipientsAreStrippedPieces(to);
    forall k | 0 <= k < |rs|
      ensures rs[k] != [] && Stripped(rs[k]) && ',' !in rs[k]
    {
      var piece := Split(to, ',')[RecipientSlots(to)[k]];
      StripInfix(piece, ',');
    }
  }

  /** Stripping never introduces a character. */
  lemma StripInfix(s: string, c: char)
    requires c !in s
    ensures c !in Strip(s)
  {
    StripKeepsInfix(s);
  }

  /** `", ".join(recipients)`, the To header of the alert message. */
  function ToHeader(rs: seq<string>): string {
    Join(", ", rs)
  }

  ghost predicate Normalised(rs: seq<string>) {
    forall k :: 0 <= k < |rs| ==> rs[k] != [] && Stripped(rs[k]) && ',' !in rs[k]
  }

  /** Normalising the To header of a normalised list gives the list back:
      the header names exactly the recipients, in order. */
  lemma RecipientsOfToHeader(rs: seq<string>)
    requires Normalised(rs)
    ensures Recipients(ToHeader(rs)) == rs
  {
    if rs == [] {
      assert Split("", ',') == [""];
      assert Strip("") == "";
      assert RecipientPieces("") == [""];
    } else {
      StripSplitCommaSpace(rs);
      assert RecipientPieces(ToHeader(rs)) == rs;
      FilterAll(rs, NonEmpty);
    }
  }

  /** Normalising twice is normalising once. */
  lemma RecipientsIdempotent(to: string)
    ensures Recipients(ToHeader(Recipients(to))) == Recipients(to)
  {
    RecipientsNormalised(to);
    RecipientsOfToHeader(Recipients(to));
  }

  /** `smtp_host and smtp_port and smtp_sender and recipients`: every field
      the transport needs is present (a port counts when it is not 0). */
  predicate SmtpComplete(host: string, port: int, sender: string, recipients: seq<string>) {
    host != [] && port != 0 && sender != [] && recipients != []
  }

  /** The SMTP settings after the command-line / environment fallback. */
  datatype SmtpSettings = SmtpSettings(
    host: string, port: int, user: string, password: string,
    sender: string, to: string, ssl: bool, tls: bool)

  /** The arguments `_send_email` is called with. */
  datatype EmailRequest = EmailRequest(
    host: string, port: int, user: Option<string>, password: Option<string>,
    sender: string, recipients: seq<string>, subject: string, body: string,
    ssl: bool, tls: bool)

  /** `x or None` on a string. */
  function OrNone(s: string): (o: Option<string>)
    ensures o.Some? <==> s != []
    ensures o.Some? ==> o.value == s
  {
    if s == [] then None else Some(s)
  }

  /** The status line of one GPU, also used as a line of the mail body. */
  function GpuLine(g: Gpu): string {
    "GPU " + Str(g.index) + ": util=" + Str(g.util) + "% mem=" + Str(g.memUsed) + "/" + Str(g.memTotal) + " MB"
  }

  /** `"\n".join(...)` of the status lines. */
  function StatusBody(gpus: seq<Gpu>): string {
    Join("\n", Map(GpuLine, gpus))
  }

  /** The mail body has one line per GPU, in order. */
  lemma StatusBodyLines(gpus: seq<Gpu>)
    requires gpus != []
    ensures SplitLines(StatusBody(gpus)) == Map(GpuLine, gpus)
  {
    var lines := Map(GpuLine, gpus);
    forall k | 0 <= k < |lines|
      ensures NoBreak(lines[k])
    {
      GpuLineNoBreak(gpus[k]);
    }
    SplitLinesJoin(lines);
  }

  lemma GpuLineNoBreak(g: Gpu)
    ensures NoBreak(GpuLine(g))
  {
    LabelsNoBreak();
    StrShape(g.index);
    StrShape(g.util);
    StrShape(g.memUsed);
    StrShape(g.memTotal);
    var a := "GPU " + Str(g.index);
    NoBreakConcat("GPU ", Str(g.index));
    var b := a + ": util=";
    NoBreakConcat(a, ": util=");
    var c := b + Str(g.util);
    NoBreakConcat(b, Str(g.util));
    var d := c + "% mem=";
    NoBreakConcat(c, "% mem=");
    var e := d + Str(g.memUsed);
    NoBreakConcat(d, Str(g.memUsed));
    var f := e + "/";
    NoBreakConcat(e, "/");
    var h := f + Str(g.memTotal);
    NoBreakConcat(f, Str(g.memTotal));
    NoBreakConcat(h, " MB");
  }

  /** The fixed text of a status line has no line break. */
  lemma LabelsNoBreak()
    ensures NoBreak("GPU ") && NoBreak(": util=") && NoBreak("% mem=")
    ensures NoBreak("/") && NoBreak(" MB")
  {
  }

  /** What the alert does about e-mail once e-mail is enabled. */
  datatype EmailPlan = SkipMissingConfig | Send(request: EmailRequest)

  /** The guarded call to `_send_email`: the message is sent exactly when the
      configuration is complete, to the normalised recipients, with the idle
      ids in the subject and the status of every GPU in the body. */
  function PlanEmail(smtp: SmtpSettings, gpus: seq<Gpu>, idleIds: string): (p: EmailPlan)
    ensures p.Send? <==> SmtpComplete(smtp.host, smtp.port, smtp.sender, Recipients(smtp.to))
    ensures p.Send? ==> && p.request.recipients == Recipients(smtp.to)
                        && p.request.recipients != []
                        && p.request.host != [] && p.request.port != 0 && p.request.sender != []
                        && p.request.subject == "GPU idle alert: " + idleIds
                        && p.request.body == StatusBody(gpus)
                        && (p.request.user.Some? <==> smtp.user != [])
                        && (p.request.password.Some? <==> smtp.password != [])
    ensures p.Send? ==> && p.request.host == smtp.host && p.request.port == smtp.port
                        && p.request.sender == smtp.sender
                        && p.request.ssl == smtp.ssl && p.request.tls == smtp.tls
                        && (p.request.user.Some? ==> p.request.user.value == smtp.user)
                        && (p.request.password.Some? ==> p.request.password.value == smtp.password)
  {
    var recipients := Recipients(smtp.to);
    if SmtpComplete(smtp.host, smtp.port, smtp.sender, recipients) then
      Send(EmailRequest(
        smtp.host, smtp.port, OrNone(smtp.user), OrNone(smtp.password),
        smtp.sender, recipients, "GPU idle alert: " + idleIds, StatusBody(gpus),
        smtp.ssl, smtp.tls))
    else SkipMissingConfig
  }
}

=== FILE: decimal.dfy ===
/** Decimal integers as text: Python's `str(n)` for an `int`, and the subset
    of Python's `int(s)` that accepts ASCII decimal literals. */
module Decimal {

  import opened Results
  import opened Seqs

  predicate IsDigit(c: char) {
    '0' <= c <= '9'
  }

  ghost predicate AllDigits(s: string) {
    forall i :: 0 <= i < |s| ==> IsDigit(s[i])
  }

  function DigitChar(d: nat): (c: char)
    requires d < 10
    ensures IsDigit(c)
  {
    ('0' as int + d) as char
  }

  /** The number a run of decimal digits denotes, most significant first. */
  function Value(ds: string): nat
    requires AllDigits(ds)
    decreases |ds|
  {
    if ds == [] then 0
    else Value(ds[..|ds| - 1]) * 10 + ((ds[|ds| - 1] as int) - ('0' as int))
  }

  /** The canonical decimal digits of `n`: never empty, no leading zero, and
      denoting `n` again. */
  function Digits(n: nat): (ds: string)
    ensures |ds| > 0 && AllDigits(ds)
    ensures ds[0] == '0' ==> ds == "0"
    ensures Value(ds) == n
    decreases n
  {
    if n < 10 then [DigitChar(n)]
    else
      var front := Digits(n / 10);
      var ds := front + [DigitChar(n % 10)];
      assert ds[..|front|] == front;
      ds
  }

  /** Python's `str(n)`. */
  function Str(n: int): (s: string)
    ensures |s| > 0
    ensures IsDigit(s[|s| - 1])
    ensures IsDigit(s[0]) || s[0] == '-'
    ensures forall i :: 0 <= i < |s| ==> IsDigit(s[i]) || (i == 0 && s[i] == '-')
  {
    if n < 0 then "-" + Digits(-n) else Digits(n)
  }

  /** The digit part of a literal accepted by Python's `int()` in base 10:
      `digit ("_"? digit)*`, so an underscore only ever separates two digits. */
  predicate DigitBody(b: string) {
    |b| > 0 && IsDigit(b[0]) && DigitTail(b[1..])
  }

  /** The `("_"? digit)*` part of `DigitBody`. */
  predicate DigitTail(t: string)
    decreases |t|
  {
    || t == []
    || (IsDigit(t[0]) && DigitTail(t[1..]))
    || (|t| > 1 && t[0] == '_' && IsDigit(t[1]) && DigitTail(t[2..]))
  }

  /** A digit tail consists of digits and underscores and does not end in an underscore. */
  lemma {:induction false} DigitTailChars(t: string)
    requires DigitTail(t)
    ensures forall i :: 0 <= i < |t| ==> IsDigit(t[i]) || t[i] == '_'
    ensures t != [] ==> IsDigit(t[|t| - 1])
    decreases |t|
  {
    if t != [] {
      if IsDigit(t[0]) && DigitTail(t[1..]) {
        DigitTailChars(t[1..]);
      } else {
        DigitTailChars(t[2..]);
      }
    }
  }

  /** A digit body consists of digits and underscores and ends in a digit. */
  lemma BodyChars(b: string)
    requires DigitBody(b)
    ensures forall i :: 0 <= i < |b| ==> IsDigit(b[i]) || b[i] == '_'
    ensures IsDigit(b[|b| - 1])
  {
    DigitTailChars(b[1..]);
    assert forall i :: 1 <= i < |b| ==> b[i] == b[1..][i - 1];
  }

  /** After a sign, a digit body contributes only digits and underscores. */
  lemma SignedChars(s: string)
    requires |s| > 0 && DigitBody(s[1..])
    ensures forall i :: 1 <= i < |s| ==> IsDigit(s[i]) || s[i] == '_'
    ensures IsDigit(s[|s| - 1])
  {
    BodyChars(s[1..]);
    forall i | 1 <= i < |s|
      ensures IsDigit(s[i]) || s[i] == '_'
    {
      assert s[i] == s[1..][i - 1];
    }
  }

  /** Any run of digits is a digit tail. */
  lemma {:induction false} DigitsAreTail(ds: string)
    requires AllDigits(ds)
    ensures DigitTail(ds)
    decreases |ds|
  {
    if ds != [] {
      DigitsAreTail(ds[1..]);
    }
  }

  function NotUnderscore(c: char): bool {
    c != '_'
  }

  /** The value of a digit body, the underscores being mere separators. */
  function Magnitude(b: string): nat
    requires DigitBody(b)
  {
    DigitTailChars(b[1..]);
    var ds := Filter(b, NotUnderscore);
    assert AllDigits(ds) by {
      forall k | 0 <= k < |ds|
        ensures IsDigit(ds[k])
      {
        var i := Positions(b, NotUnderscore)[k];
        assert ds[k] == b[i];
        assert i == 0 || b[i] == b[1..][i - 1];
      }
    }
    Value(ds)
  }

  /** Python's `int(s)` on a string with no surrounding whitespace: an
      optional sign, then a digit body.  Anything else is refused. */
  function ParseInt(s: string): (r: Option<int>)
    ensures r.Some? ==> |s| > 0 && IsDigit(s[|s| - 1])
    ensures r.Some? ==> forall i :: 0 <= i < |s| ==> s[i] != ',' && s[i] != ' '
    ensures r.Some? ==> forall i :: 0 <= i < |s| ==>
              IsDigit(s[i]) || s[i] == '_' || (i == 0 && (s[i] == '-' || s[i] == '+'))
  {
    if |s| > 0 && (s[0] == '-' || s[0] == '+') then
      var b := s[1..];
      if DigitBody(b) then
        SignedChars(s);
        var v: int := if s[0] == '-' then -(Magnitude(b) as int) else Magnitude(b);
        Some(v)
      else None
    else if DigitBody(s) then
      BodyChars(s);
      Some(Magnitude(s))
    else None
  }

  /** A plain run of digits is read as the number it denotes, leading zeros included. */
  lemma ParseDigits(ds: string)
    requires |ds| > 0 && AllDigits(ds)
    ensures ParseInt(ds) == Some(Value(ds))
  {
    DigitsAreBody(ds);
    FilterAll(ds, NotUnderscore);
    assert ds[0] != '-' && ds[0] != '+';
  }

  /** A plus sign before a run of digits changes nothing. */
  lemma ParsePlus(ds: string)
    requires |ds| > 0 && AllDigits(ds)
    ensures ParseInt("+" + ds) == Some(Value(ds))
  {
    var s := "+" + ds;
    assert s[0] == '+' && s[1..] == ds;
    DigitsAreBody(ds);
    FilterAll(ds, NotUnderscore);
  }

  /** A minus sign before a run of digits negates it, leading zeros included. */
  lemma ParseMinus(ds: string)
    requires |ds| > 0 && AllDigits(ds)
    ensures ParseInt("-" + ds) == Some(-(Value(ds) as int))
  {
    var s := "-" + ds;
    assert s[0] == '-' && s[1..] == ds;
    DigitsAreBody(ds);
    FilterAll(ds, NotUnderscore);
  }

  /** An underscore between two runs of digits is a mere separator. */
  lemma ParseUnderscore(a: string, b: string)
    requires |a| > 0 && AllDigits(a) && |b| > 0 && AllDigits(b)
    ensures ParseInt(a + "_" + b) == ParseInt(a + b)
    ensures ParseInt(a + "_" + b) == Some(Value(a + b))
  {
    var s := a + "_" + b;
    UnderscoreBody(a, b);
    ParseUnsigned(s);
    UnderscoreDropped(a, b);
    ParseDigits(a + b);
  }

  /** Without a sign, `int` reads a well-formed literal as its digits' value. */
  lemma ParseUnsigned(s: string)
    requires DigitBody(s)
    ensures ParseInt(s) == Some(Magnitude(s))
  {
    assert s[0] != '-' && s[0] != '+';
  }

  /** `a_b` is a well-formed unsigned literal. */
  lemma UnderscoreBody(a: string, b: string)
    requires |a| > 0 && AllDigits(a) && |b| > 0 && AllDigits(b)
    ensures DigitBody(a + "_" + b)
  {
    var s := a + "_" + b;
    var t := a[1..];
    assert AllDigits(t) by {
      forall i | 0 <= i < |t| ensures IsDigit(t[i]) {
        assert t[i] == a[i + 1];
      }
    }
    TailUnderscore(t, b);
    assert s[1..] == t + "_" + b;
    assert s[0] == a[0];
  }

  /** Dropping the underscores from `a_b` leaves `a + b`. */
  lemma UnderscoreDropped(a: string, b: string)
    requires AllDigits(a) && AllDigits(b)
    ensures Filter(a + "_" + b, NotUnderscore) == a + b
  {
    FilterAppend(a + "_", b, NotUnderscore);
    FilterAppend(a, "_", NotUnderscore);
    FilterAll(a, NotUnderscore);
    FilterAll(b, NotUnderscore);
    assert Filter("_", NotUnderscore) == [] by {
      assert "_"[..0] == [];
    }
  }

  /** Digits, one underscore, and a non-empty run of digits form a digit tail. */
  lemma {:induction false} TailUnderscore(t: string, b: string)
    requires AllDigits(t) && |b| > 0 && AllDigits(b)
    ensures DigitTail(t + "_" + b)
    decreases |t|
  {
    var u := t + "_" + b;
    if t == [] {
      assert u == "_" + b;
      assert u[2..] == b[1..];
      DigitsAreTail(b[1..]);
    } else {
      assert u[1..] == t[1..] + "_" + b;
      TailUnderscore(t[1..], b);
    }
  }

  /** `int` accepts an underscore only between two digits: `"_1"`, `"+_1"`,
      `"1_"` and `"1__0"` are all refused. */
  lemma ParseIntUnderscores(s: string)
    requires ParseInt(s).Some?
    ensures forall i :: 0 <= i < |s| && s[i] == '_' ==>
              0 < i < |s| - 1 && IsDigit(s[i - 1]) && IsDigit(s[i + 1])
  {
    if |s| > 0 && (s[0] == '-' || s[0] == '+') {
      var b := s[1..];
      assert DigitBody(b);
      BodyUnderscores(b);
      forall i | 0 <= i < |s| && s[i] == '_'
        ensures 0 < i < |s| - 1 && IsDigit(s[i - 1]) && IsDigit(s[i + 1])
      {
        assert s[i] == b[i - 1];
        assert s[i - 1] == b[i - 2] && s[i + 1] == b[i];
      }
    } else {
      assert DigitBody(s);
      BodyUnderscores(s);
    }
  }

  /** In a digit body every underscore sits between two digits. */
  lemma BodyUnderscores(b: string)
    requires DigitBody(b)
    ensures forall i :: 0 <= i < |b| && b[i] == '_' ==>
              0 < i < |b| - 1 && IsDigit(b[i - 1]) && IsDigit(b[i + 1])
  {
    var t := b[1..];
    TailUnderscores(t);
    forall i | 0 <= i < |b| && b[i] == '_'
      ensures 0 < i < |b| - 1 && IsDigit(b[i - 1]) && IsDigit(b[i + 1])
    {
      assert b[i] == t[i - 1] && b[i + 1] == t[i];
      assert i == 1 || b[i - 1] == t[i - 2];
    }
  }

  /** In a digit tail every underscore is followed by a digit, and preceded
      by one unless it comes first. */
  lemma {:induction false} TailUnderscores(t: string)
    requires DigitTail(t)
    ensures forall i :: 0 <= i < |t| && t[i] == '_' ==>
              i < |t| - 1 && IsDigit(t[i + 1]) && (i == 0 || IsDigit(t[i - 1]))
    decreases |t|
  {
    if t != [] {
      if IsDigit(t[0]) && DigitTail(t[1..]) {
        var u := t[1..];
        TailUnderscores(u);
        forall i | 0 <= i < |t| && t[i] == '_'
          ensures i < |t| - 1 && IsDigit(t[i + 1]) && (i == 0 || IsDigit(t[i - 1]))
        {
          assert t[i] == u[i - 1] && t[i + 1] == u[i];
          assert i == 1 || t[i - 1] == u[i - 2];
        }
      } else {
        var u := t[2..];
        TailUnderscores(u);
        forall i | 0 <= i < |t| && t[i] == '_'
          ensures i < |t| - 1 && IsDigit(t[i + 1]) && (i == 0 || IsDigit(t[i - 1]))
        {
          if i >= 2 {
            assert t[i] == u[i - 2] && t[i + 1] == u[i - 1];
            assert i == 2 || t[i - 1] == u[i - 3];
          }
        }
      }
    }
  }

  lemma DigitsAreBody(ds: string)
    requires |ds| > 0 && AllDigits(ds)
    ensures DigitBody(ds)
    ensures forall i :: 0 <= i < |ds| ==> NotUnderscore(ds[i])
  {
    DigitsAreTail(ds[1..]);
  }

  /** `int(str(n)) == n`: the text `str` produces is accepted by `int` and
      denotes the same number. */
  lemma ParseStr(n: int)
    ensures ParseInt(Str(n)) == Some(n)
  {
    if n < 0 {
      var ds := Digits(-n);
      assert Str(n)[1..] == ds;
      DigitsAreBody(ds);
      FilterAll(ds, NotUnderscore);
    } else {
      ParseDigits(Digits(n));
    }
  }
}

=== FILE: idle.dfy ===
/** The idleness classifier, the idle filter of the check cycle, and the
    comma-joined list of idle GPU indices that the alert reports. */
module Idle {

  import opened Results
  import opened Seqs
  import opened Decimal
  import opened Telemetry

  /** `_is_gpu_idle`: a GPU is idle when both its utilisation and its memory
      use are at or below their thresholds. */
  predicate IsIdle(g: Gpu, utilTh: int, memTh: int) {
    g.util <= utilTh && g.memUsed <= memTh
  }

  function IdleTest(utilTh: int, memTh: int): Gpu -> bool {
    g => IsIdle(g, utilTh, memTh)
  }

  /** The positions of the idle GPUs in `gpus`. */
  function IdlePositions(gpus: seq<Gpu>, utilTh: int, memTh: int): seq<nat> {
    Positions(gpus, IdleTest(utilTh, memTh))
  }

  /** `[g for g in gpus if _is_gpu_idle(g, util_th, mem_th)]`: the idle GPUs,
      each at the position it has in `gpus`, in the same order, and no other. */
  function IdleGpus(gpus: seq<Gpu>, utilTh: int, memTh: int): (idle: seq<Gpu>)
    ensures |idle| == |IdlePositions(gpus, utilTh, memTh)| <= |gpus|
    ensures forall k :: 0 <= k < |idle| ==>
              && IdlePositions(gpus, utilTh, memTh)[k] < |gpus|
              && idle[k] == gpus[IdlePositions(gpus, utilTh, memTh)[k]]
              && IsIdle(idle[k], utilTh, memTh)
    ensures forall i :: 0 <= i < |gpus| ==> (IsIdle(gpus[i], utilTh, memTh) <==> i in IdlePositions(gpus, utilTh, memTh))
  {
    Filter(gpus, IdleTest(utilTh, memTh))
  }

  /** The idle list is non-empty exactly when some GPU is idle, so the alert
      fires exactly then. */
  lemma SomeIdleIff(gpus: seq<Gpu>, utilTh: int, memTh: int)
    ensures |IdleGpus(gpus, utilTh, memTh)| > 0 <==> exists i :: 0 <= i < |gpus| && IsIdle(gpus[i], utilTh, memTh)
  {
    var ix := IdlePositions(gpus, utilTh, memTh);
    var idle := IdleGpus(gpus, utilTh, memTh);
    if |idle| > 0 {
      assert ix[0] < |gpus| && IsIdle(gpus[ix[0]], utilTh, memTh);
    }
    if exists i :: 0 <= i < |gpus| && IsIdle(gpus[i], utilTh, memTh) {
      var i :| 0 <= i < |gpus| && IsIdle(gpus[i], utilTh, memTh);
      assert i in ix;
    }
  }

  /** Raising the thresholds keeps every GPU that was idle: the old idle list
      is a subsequence of the new one. */
  lemma IdleListMonotone(gpus: seq<Gpu>, utilTh: int, memTh: int, utilTh': int, memTh': int)
    requires utilTh <= utilTh' && memTh <= memTh'
    ensures IsSubseq(IdleGpus(gpus, utilTh, memTh), IdleGpus(gpus, utilTh', memTh'))
  {
    FilterMonotone(gpus, IdleTest(utilTh, memTh), IdleTest(utilTh', memTh'));
  }

  function IndexText(g: Gpu): string {
    Str(g.index)
  }

  /** `",".join(str(g["index"]) for g in idle)`. */
  function IdleIds(idle: seq<Gpu>): string {
    Join([','], Map(IndexText, idle))
  }

  /** The id list can be read back: splitting it on commas gives one piece
      per idle GPU, in order, and each piece reads as that GPU's index. */
  lemma IdleIdsRoundTrip(idle: seq<Gpu>)
    requires |idle| > 0
    ensures |Split(IdleIds(idle), ',')| == |idle|
    ensures forall k :: 0 <= k < |idle| ==> ParseInt(Split(IdleIds(idle), ',')[k]) == Some(idle[k].index)
  {
    var texts := Map(IndexText, idle);
    forall k | 0 <= k < |texts|
      ensures ',' !in texts[k]
    {
      StrShape(idle[k].index);
    }
    SplitJoin(texts, ',');
    forall k | 0 <= k < |idle|
      ensures ParseInt(texts[k]) == Some(idle[k].index)
    {
      ParseStr(idle[k].index);
    }
  }
}

=== FILE: loops.dfy ===
/** The shape of a polling loop over a finite series of inputs: each input
    is handled on its own, and the loop stops at the first step that asks
    to stop, or when the inputs run out. */
module Loops {

  import opened Results

  method RunUntil<P, R, X>(inputs: seq<P>, step: P -> R, stop: R -> Option<X>)
    returns (results: seq<R>, ending: Option<X>)
    ensures |results| <= |inputs|
    ensures forall k :: 0 <= k < |results| ==> results[k] == step(inputs[k])
    ensures forall k :: 0 <= k < |results| - 1 ==> stop(results[k]).None?
    ensures ending.Some? ==> |results| > 0 && ending == stop(results[|results| - 1])
    ensures ending.None? ==> |results| == |inputs| && forall k :: 0 <= k < |results| ==> stop(results[k]).None?
  {
    results := [];
    ending := None;
    var i := 0;
    while i < |inputs| && ending.None?
      invariant 0 <= i <= |inputs| && |results| == i
      invariant forall k :: 0 <= k < i ==> results[k] == step(inputs[k])
      invariant forall k :: 0 <= k < i - 1 ==> stop(results[k]).None?
      invariant ending.None? ==> forall k :: 0 <= k < i ==> stop(results[k]).None?
      invariant ending.Some? ==> i > 0 && ending == stop(results[i - 1])
    {
      var r := step(inputs[i]);
      results := results + [r];
      ending := stop(r);
      i := i + 1;
    }
  }
}

=== FILE: results.dfy ===
/** Failure-carrying values: `Option` for a conversion that may be refused,
    `Result` for a computation that either yields a value or raises an error. */
module Results {

  datatype Option<+T> = None | Some(value: T)

  datatype Result<+T, +E> = Ok(value: T) | Err(error: E)
}

=== FILE: seqs.dfy ===
/** Sequence utilities shared by the telemetry parser, the idle filter and the
    recipient normalisation: order-preserving filtering, mapping, and the
    separator-based `split` / `join` pair of Python strings. */
module Seqs {

  import opened Results

  /** Every index appears after all smaller ones: positions listed once each, in order. */
  ghost predicate Increasing(ix: seq<nat>) {
    forall a, b :: 0 <= a < b < |ix| ==> ix[a] < ix[b]
  }

  /** The positions of `s` whose element satisfies `p`, in ascending order. */
  function Positions<T>(s: seq<T>, p: T -> bool): (ix: seq<nat>)
    ensures Increasing(ix)
    ensures forall k :: 0 <= k < |ix| ==> ix[k] < |s| && p(s[ix[k]])
    ensures forall i :: 0 <= i < |s| && p(s[i]) ==> i in ix
    ensures |ix| <= |s|
    decreases |s|
  {
    if s == [] then []
    else
      var front := Positions(s[..|s| - 1], p);
      if p(s[|s| - 1]) then front + [|s| - 1] else front
  }

  /** The elements of `s` that satisfy `p`, in their original order: Python's
      `[x for x in s if p(x)]`.  Together with the contract of `Positions`
      this determines the result completely. */
  function Filter<T>(s: seq<T>, p: T -> bool): (r: seq<T>)
    ensures |r| == |Positions(s, p)|
    ensures forall k :: 0 <= k < |r| ==> r[k] == s[Positions(s, p)[k]]
    decreases |s|
  {
    if s == [] then []
    else
      var front := Filter(s[..|s| - 1], p);
      if p(s[|s| - 1]) then front + [s[|s| - 1]] else front
  }

  /** Membership in a filtered sequence, both directions. */
  lemma FilterMembers<T>(s: seq<T>, p: T -> bool, x: T)
    ensures x in Filter(s, p) <==> x in s && p(x)
  {
    var r, ix := Filter(s, p), Positions(s, p);
    if x in s && p(x) {
      var i :| 0 <= i < |s| && s[i] == x;
      var k :| 0 <= k < |ix| && ix[k] == i;
      assert r[k] == x;
    }
  }

  /** Filtering keeps a sequence whose elements all pass. */
  lemma {:induction false} FilterAll<T>(s: seq<T>, p: T -> bool)
    requires forall i :: 0 <= i < |s| ==> p(s[i])
    ensures Filter(s, p) == s
    decreases |s|
  {
    if s != [] {
      var front := s[..|s| - 1];
      FilterAll(front, p);
      assert Filter(s, p) == Filter(front, p) + [s[|s| - 1]];
      assert front + [s[|s| - 1]] == s;
    }
  }

  /** Filtering a concatenation filters each part. */
  lemma {:induction false} FilterAppend<T>(s: seq<T>, t: seq<T>, p: T -> bool)
    ensures Filter(s + t, p) == Filter(s, p) + Filter(t, p)
    decreases |t|
  {
    if t != [] {
      var t' := t[..|t| - 1];
      FilterAppend(s, t', p);
      assert (s + t)[..|s + t| - 1] == s + t';
      assert (s + t)[|s + t| - 1] == t[|t| - 1];
    } else {
      assert s + t == s;
    }
  }

  /** `a` can be obtained from `b` by deleting elements (matching greedily from the back). */
  predicate IsSubseq<T(==)>(a: seq<T>, b: seq<T>)
    decreases |b|
  {
    if a == [] then true
    else if b == [] then false
    else if a[|a| - 1] == b[|b| - 1] then IsSubseq(a[..|a| - 1], b[..|b| - 1])
    else IsSubseq(a, b[..|b| - 1])
  }

  /** Removing the last element of a subsequence keeps a subsequence. */
  lemma {:induction false} SubseqDropLast<T>(a: seq<T>, b: seq<T>)
    requires a != [] && IsSubseq(a, b)
    ensures IsSubseq(a[..|a| - 1], b)
    decreases |b|, 0
  {
    var a', b' := a[..|a| - 1], b[..|b| - 1];
    assert b == b' + [b[|b| - 1]];
    if a[|a| - 1] == b[|b| - 1] {
      SubseqExtend(a', b', b[|b| - 1]);
    } else {
      SubseqDropLast(a, b');
      SubseqExtend(a', b', b[|b| - 1]);
    }
  }

  /** Appending an element to the larger sequence keeps a subsequence. */
  lemma {:induction false} SubseqExtend<T>(a: seq<T>, b: seq<T>, x: T)
    requires IsSubseq(a, b)
    ensures IsSubseq(a, b + [x])
    decreases |b|, 1
  {
    assert (b + [x])[..|b|] == b;
    if a != [] && a[|a| - 1] == x {
      SubseqDropLast(a, b);
    }
  }

  /** A stronger filter keeps a subsequence of what a weaker filter keeps. */
  lemma {:induction false} FilterMonotone<T>(s: seq<T>, p: T -> bool, q: T -> bool)
    requires forall x :: p(x) ==> q(x)
    ensures IsSubseq(Filter(s, p), Filter(s, q))
    decreases |s|
  {
    if s != [] {
      var front := s[..|s| - 1];
      var x := s[|s| - 1];
      FilterMonotone(front, p, q);
      var fp, fq := Filter(front, p), Filter(front, q);
      if p(x) {
        assert Filter(s, p) == fp + [x];
        assert Filter(s, q) == fq + [x];
        assert (fp + [x])[..|fp|] == fp;
        assert (fq + [x])[..|fq|] == fq;
      } else if q(x) {
        SubseqExtend(fp, fq, x);
      }
    }
  }

  /** Python's `f(x) for x in s`. */
  function Map<A, B>(f: A -> B, s: seq<A>): (r: seq<B>)
    ensures |r| == |s|
    ensures forall i :: 0 <= i < |s| ==> r[i] == f(s[i])
  {
    seq(|s|, i requires 0 <= i < |s| => f(s[i]))
  }

  /** Python's `sep.join(parts)`. */
  function Join<T>(sep: seq<T>, parts: seq<seq<T>>): seq<T>
    decreases |parts|
  {
    if |parts| == 0 then []
    else if |parts| == 1 then parts[0]
    else parts[0] + sep + Join(sep, parts[1..])
  }

  /** The first position holding `x`, or `|s|` when there is none. */
  function IndexOf<T(==)>(s: seq<T>, x: T): (i: nat)
    ensures i <= |s|
    ensures x !in s[..i]
    ensures i < |s| ==> s[i] == x
  {
    if s == [] || s[0] == x then 0
    else
      var j := IndexOf(s[1..], x);
      assert s[..j + 1] == [s[0]] + s[1..][..j];
      j + 1
  }

  /** The separator is found right after a prefix that lacks it. */
  lemma {:induction false} IndexOfAfter<T>(p: seq<T>, x: T, t: seq<T>)
    requires x !in p
    ensures IndexOf(p + [x] + t, x) == |p|
    decreases |p|
  {
    if p != [] {
      IndexOfAfter(p[1..], x, t);
      assert (p + [x] + t)[1..] == p[1..] + [x] + t;
    }
  }

  /** Python's `s.split(sep)` for a one-element separator: always at least one
      piece, one more than the separator occurs. */
  function Split<T(==)>(s: seq<T>, sep: T): (parts: seq<seq<T>>)
    ensures |parts| > 0
    ensures forall k :: 0 <= k < |parts| ==> sep !in parts[k]
    ensures Join([sep], parts) == s
    decreases |s|
  {
    var i := IndexOf(s, sep);
    if i == |s| then
      assert s[..i] == s;
      [s]
    else
      var rest := Split(s[i + 1..], sep);
      assert s == s[..i] + [sep] + s[i + 1..];
      assert ([s[..i]] + rest)[1..] == rest;
      [s[..i]] + rest
  }

  /** There is one piece more than there are separators. */
  lemma {:induction false} SplitCount<T>(s: seq<T>, sep: T)
    ensures |Split(s, sep)| == multiset(s)[sep] + 1
    decreases |s|
  {
    var i := IndexOf(s, sep);
    if i == |s| {
      assert s[..i] == s;
    } else {
      SplitCount(s[i + 1..], sep);
      SplitCountStep(s, sep, i);
    }
  }

  /** One separator and the prefix before it account for the first piece. */
  lemma SplitCountStep<T>(s: seq<T>, sep: T, i: nat)
    requires i == IndexOf(s, sep) < |s|
    ensures |Split(s, sep)| == 1 + |Split(s[i + 1..], sep)|
    ensures multiset(s)[sep] == 1 + multiset(s[i + 1..])[sep]
  {
    assert s == s[..i] + [sep] + s[i + 1..];
    assert multiset(s[..i])[sep] == 0;
  }

  /** Splitting what was joined gives the parts back, provided no part holds the separator. */
  lemma {:induction false} SplitJoin<T>(parts: seq<seq<T>>, sep: T)
    requires |parts| > 0
    requires forall k :: 0 <= k < |parts| ==> sep !in parts[k]
    ensures Split(Join([sep], parts), sep) == parts
    decreases |parts|
  {
    var s := Join([sep], parts);
    var p := parts[0];
    if |parts| == 1 {
      assert s == p;
      assert s[..|s|] == s;
    } else {
      var tail := Join([sep], parts[1..]);
      assert s == p + [sep] + tail;
      IndexOfAfter(p, sep, tail);
      assert s[..|p|] == p;
      assert s[|p| + 1..] == tail;
      SplitJoin(parts[1..], sep);
      assert parts == [p] + parts[1..];
    }
  }

  /** What one iteration of a parsing loop does with an element: skip it,
      keep a value, or raise an error that ends the whole loop. */
  datatype Step<+U, +E> = Skip | Keep(value: U) | Raise(error: E)

  function Kept<T, U, E>(step: T -> Step<U, E>): T -> bool {
    x => step(x).Keep?
  }

  /** Runs `step` over `xs` from the front: the kept values in order, or the
      position and error of the first element that raises.
      - It succeeds exactly when no element raises.
      - On failure every earlier element was skipped or kept.
      `CollectKept` says which value comes from which element on success. */
  function Collect<T, U, E>(xs: seq<T>, step: T -> Step<U, E>): (r: Result<seq<U>, (nat, E)>)
    ensures r.Ok? <==> forall i :: 0 <= i < |xs| ==> !step(xs[i]).Raise?
    ensures r.Ok? ==> |r.value| <= |xs|
    ensures r.Err? ==> && r.error.0 < |xs|
                       && step(xs[r.error.0]) == Raise(r.error.1)
                       && forall j :: 0 <= j < r.error.0 ==> !step(xs[j]).Raise?
    decreases |xs|
  {
    if xs == [] then Ok([])
    else
      var n := |xs| - 1;
      var front := xs[..n];
      assert forall j :: 0 <= j < n ==> front[j] == xs[j];
      match Collect(front, step)
      case Err(e) => Err(e)
      case Ok(vs) =>
        match step(xs[n])
        case Skip => Ok(vs)
        case Raise(e) => Err((n, e))
        case Keep(v) => Ok(vs + [v])
  }

  /** On success value `k` is the one kept at position `Positions(xs, Kept(step))[k]`. */
  lemma {:induction false} CollectKept<T, U, E>(xs: seq<T>, step: T -> Step<U, E>)
    requires Collect(xs, step).Ok?
    ensures var vs := Collect(xs, step).value;
      && |vs| == |Positions(xs, Kept(step))|
      && forall k :: 0 <= k < |vs| ==> step(xs[Positions(xs, Kept(step))[k]]) == Keep(vs[k])
    decreases |xs|
  {
    if xs != [] {
      var n := |xs| - 1;
      var front := xs[..n];
      assert forall j :: 0 <= j < n ==> front[j] == xs[j];
      CollectKept(front, step);
      var vs := Collect(front, step).value;
      var ix := Positions(front, Kept(step));
      match step(xs[n])
      case Skip =>
        assert Collect(xs, step).value == vs;
        assert Positions(xs, Kept(step)) == ix;
      case Keep(v) =>
        assert Collect(xs, step).value == vs + [v];
        assert Positions(xs, Kept(step)) == ix + [n];
    }
  }

  /** When every element passes, the positions are all of them, in order. */
  lemma {:induction false} PositionsAll<T>(s: seq<T>, p: T -> bool)
    requires forall i :: 0 <= i < |s| ==> p(s[i])
    ensures |Positions(s, p)| == |s|
    ensures forall k :: 0 <= k < |s| ==> Positions(s, p)[k] == k
    decreases |s|
  {
    if s != [] {
      var front := s[..|s| - 1];
      PositionsAll(front, p);
    }
  }

  /** A join of non-empty outer parts starts like the first part and ends like the last. */
  lemma {:induction false} JoinEnds<T>(sep: seq<T>, parts: seq<seq<T>>)
    requires |parts| > 0 && parts[0] != [] && parts[|parts| - 1] != []
    ensures |Join(sep, parts)| > 0
    ensures Join(sep, parts)[0] == parts[0][0]
    ensures Join(sep, parts)[|Join(sep, parts)| - 1] == parts[|parts| - 1][|parts[|parts| - 1]| - 1]
    decreases |parts|
  {
    if |parts| > 1 {
      var rest := parts[1..];
      if |rest| > 1 || rest[0] != [] {
        assert rest[|rest| - 1] == parts[|parts| - 1];
        JoinEndsLast(sep, rest);
      }
    }
  }

  /** A join whose last part is non-empty ends like that part. */
  lemma {:induction false} JoinEndsLast<T>(sep: seq<T>, parts: seq<seq<T>>)
    requires |parts| > 0 && parts[|parts| - 1] != []
    ensures |Join(sep, parts)| > 0
    ensures Join(sep, parts)[|Join(sep, parts)| - 1] == parts[|parts| - 1][|parts[|parts| - 1]| - 1]
    decreases |parts|
  {
    if |parts| > 1 {
      JoinEndsLast(sep, parts[1..]);
    }
  }

  /** Extensional equality, stated once so that it can be used where the
      surrounding facts make the solver's own search expensive. */
  lemma SameElements<T>(a: seq<T>, b: seq<T>)
    requires |a| == |b|
    requires forall k :: 0 <= k < |a| ==> a[k] == b[k]
    ensures a == b
  {
  }

  /** A loop whose every step keeps a value collects exactly those values. */
  lemma CollectAllKept<T, U, E>(xs: seq<T>, step: T -> Step<U, E>, vs: seq<U>)
    requires |xs| == |vs|
    requires forall i :: 0 <= i < |xs| ==> step(xs[i]) == Keep(vs[i])
    ensures Collect(xs, step) == Ok(vs)
  {
    var r := Collect(xs, step);
    assert r.Ok?;
    CollectKept(xs, step);
    PositionsAll(xs, Kept(step));
    forall k | 0 <= k < |vs|
      ensures r.value[k] == vs[k]
    {
      assert Positions(xs, Kept(step))[k] == k;
    }
    SameElements(r.value, vs);
  }
}

=== FILE: telemetry.dfy ===
/** The telemetry parser: turns the text printed by
    `nvidia-smi --query-gpu=index,utilization.gpu,memory.used,memory.total
    --format=csv,noheader,nounits` into one record per GPU. */
module Telemetry {

  import opened Results
  import opened Seqs
  import opened Text
  import opened Decimal

  /** One GPU reading: device index, utilisation in percent, memory used and
      memory total in MiB.  Python integers are unbounded, and so are these. */
  datatype Gpu = Gpu(index: int, util: int, memUsed: int, memTotal: int)

  /** The four values of a GPU in the order of the `--query-gpu` columns. */
  function Columns(g: Gpu): seq<int> {
    [g.index, g.util, g.memUsed, g.memTotal]
  }

  /** Four values read in column order make the GPU they describe. */
  lemma ColumnsOfFour(vs: seq<int>)
    requires |vs| == 4
    ensures Columns(Gpu(vs[0], vs[1], vs[2], vs[3])) == vs
  {
  }

  /** The `ValueError` raised by `int()`: the 0-based line (among the lines of
      the stripped output) and the field text that was refused. */
  datatype ParseError = InvalidLiteral(line: nat, literal: string)

  /** The comma-separated fields of a line, each stripped of whitespace. */
  function Fields(line: string): (fs: seq<string>)
    ensures |fs| == |Split(line, ',')|
    ensures forall k :: 0 <= k < |fs| ==> Stripped(fs[k])
  {
    Map(Strip, Split(line, ','))
  }

  /** Only lines with exactly four comma-separated fields describe a GPU. */
  predicate HasFourFields(line: string) {
    |Split(line, ',')| == 4
  }

  /** A line has four fields exactly when it holds three commas; in
      particular a blank line (one field) never describes a GPU. */
  lemma FourFieldsIffThreeCommas(line: string)
    ensures HasFourFields(line) <==> multiset(line)[','] == 3
    ensures line == [] ==> !HasFourFields(line)
  {
    SplitCount(line, ',');
  }

  /** `int` applied to each field in turn, as `map(int, parts)` is consumed
      by the tuple unpacking: all values, or the first refused field. */
  function DecodeFields(fs: seq<string>): (r: Result<seq<int>, string>)
    ensures r.Ok? <==> forall k :: 0 <= k < |fs| ==> ParseInt(fs[k]).Some?
    ensures r.Ok? ==> |r.value| == |fs| && forall k :: 0 <= k < |fs| ==> ParseInt(fs[k]) == Some(r.value[k])
    ensures r.Err? ==> exists k :: && 0 <= k < |fs| && fs[k] == r.error && ParseInt(fs[k]).None?
                                   && forall j :: 0 <= j < k ==> ParseInt(fs[j]).Some?
  {
    match Collect(fs, FieldStep)
    case Ok(vs) =>
      CollectKept(fs, FieldStep);
      PositionsAll(fs, Kept(FieldStep));
      Ok(vs)
    case Err((k, field)) => Err(field)
  }

  /** One field of the decoding loop: its value, or the field itself as the error. */
  function FieldStep(f: string): (s: Step<int, string>)
    ensures s.Raise? <==> ParseInt(f).None?
  {
    match ParseInt(f)
    case None => Raise(f)
    case Some(v) => Keep(v)
  }

  /** Fields that each read as the matching value decode to those values. */
  lemma DecodeFieldsOk(fs: seq<string>, vs: seq<int>)
    requires |fs| == |vs|
    requires forall k :: 0 <= k < |fs| ==> ParseInt(fs[k]) == Some(vs[k])
    ensures DecodeFields(fs) == Ok(vs)
  {
    var r := DecodeFields(fs);
    assert r.Ok?;
    assert r.value == vs;
  }

  /** The record of a four-field line: index, utilisation, memory used,
      memory total, in that order. */
  function DecodeRecord(fs: seq<string>): (r: Result<Gpu, string>)
    requires |fs| == 4
    ensures r.Ok? <==> DecodeFields(fs).Ok?
    ensures r.Ok? ==> DecodeFields(fs).value == Columns(r.value)
    ensures r.Err? ==> r.error == DecodeFields(fs).error && r.error in fs && ParseInt(r.error).None?
  {
    match DecodeFields(fs)
    case Err(e) => Err(e)
    case Ok(vs) =>
      ColumnsOfFour(vs);
      Ok(Gpu(vs[0], vs[1], vs[2], vs[3]))
  }

  /** One iteration of the loop in `_parse_nvidia_smi`: a line without
      exactly four fields is skipped, any other line yields its record or
      raises the `ValueError` of its first non-integer field. */
  function LineStep(line: string): (st: Step<Gpu, string>)
    ensures st.Skip? <==> !HasFourFields(line)
    ensures st.Keep? ==> && HasFourFields(line)
                         && DecodeFields(Fields(line)).Ok?
                         && DecodeFields(Fields(line)).value == Columns(st.value)
    ensures st.Raise? ==> ParseInt(st.error).None? && st.error in Fields(line)
  {
    if !HasFourFields(line) then Skip
    else
      match DecodeRecord(Fields(line))
      case Err(e) => Raise(e)
      case Ok(g) => Keep(g)
  }

  /** The positions of the lines that describe a GPU. */
  function RecordLines(lines: seq<string>): seq<nat> {
    Positions(lines, Kept(LineStep))
  }

  /** The loop of `_parse_nvidia_smi` over already split lines.
      - It succeeds exactly when no line raises.
      - On success record `k` is decoded from line `RecordLines(lines)[k]`,
        so records keep the order of their lines and each comes from a
        different four-field line.
      - On failure the error names the first four-field line with a field
        that is not an integer, together with that field. */
  function ParseLines(lines: seq<string>): (r: Result<seq<Gpu>, ParseError>)
    ensures r.Ok? <==> forall i :: 0 <= i < |lines| ==> !LineStep(lines[i]).Raise?
    ensures r.Ok? ==> && |r.value| == |RecordLines(lines)|
                      && forall k :: 0 <= k < |r.value| ==>
                           LineStep(lines[RecordLines(lines)[k]]) == Keep(r.value[k])
    ensures r.Err? ==> && r.error.line < |lines|
                       && LineStep(lines[r.error.line]) == Raise(r.error.literal)
                       && forall j :: 0 <= j < r.error.line ==> !LineStep(lines[j]).Raise?
  {
    match Collect(lines, LineStep)
    case Ok(gs) => CollectKept(lines, LineStep); Ok(gs)
    case Err((i, literal)) => Err(InvalidLiteral(i, literal))
  }

  /** The lines `_parse_nvidia_smi` iterates over: `output.strip().splitlines()`. */
  function SmiLines(output: string): (lines: seq<string>)
    ensures |lines| <= |output|
    ensures forall k :: 0 <= k < |lines| ==> NoBreak(lines[k])
  {
    SplitLines(Strip(output))
  }

  /** `_parse_nvidia_smi`: the records of the four-field lines, in order, or
      the first `ValueError`. */
  function ParseSmi(output: string): (r: Result<seq<Gpu>, ParseError>)
    ensures r.Ok? ==> |r.value| <= |SmiLines(output)|
    ensures r.Err? ==> r.error.line < |SmiLines(output)|
  {
    ParseLines(SmiLines(output))
  }

  /** On success the lines that yield records are exactly the lines with
      four fields: blank lines and lines with any other number of fields
      yield none, and every four-field line yields one. */
  lemma RecordsComeFromFourFieldLines(lines: seq<string>, i: nat)
    requires ParseLines(lines).Ok? && i < |lines|
    ensures i in RecordLines(lines) <==> HasFourFields(lines[i])
  {
    if HasFourFields(lines[i]) {
      assert !LineStep(lines[i]).Raise?;
      assert Kept(LineStep)(lines[i]);
    }
  }

  /** Records are in the order of the lines they come from, and there are
      never more records than lines. */
  lemma RecordsInLineOrder(output: string, a: nat, b: nat)
    requires ParseSmi(output).Ok? && a < b < |ParseSmi(output).value|
    ensures RecordLines(SmiLines(output))[a] < RecordLines(SmiLines(output))[b]
    ensures |ParseSmi(output).value| <= |SmiLines(output)|
  {
  }

  /** A four-field line with a field that `int` refuses fails the whole
      parse, whatever the other lines hold. */
  lemma BadFourFieldLineFails(lines: seq<string>, i: nat, k: nat)
    requires i < |lines| && HasFourFields(lines[i])
    requires k < 4 && ParseInt(Fields(lines[i])[k]).None?
    ensures ParseLines(lines).Err?
    ensures ParseLines(lines).error.line <= i
  {
    assert LineStep(lines[i]).Raise?;
  }

  /** A line holding only whitespace is skipped. */
  lemma BlankLineSkipped(line: string)
    requires AllSpace(line)
    ensures LineStep(line) == Skip
  {
    assert !IsSpace(',');
    assert ',' !in line;
    assert multiset(line)[','] == 0;
    SplitCount(line, ',');
  }

  // ---- Rendering, the inverse of parsing -------------------------------

  /** How `nvidia-smi` prints one GPU with `--format=csv,noheader,nounits`:
      the values separated by ", ". */
  function CsvLine(g: Gpu): string {
    Join(", ", Map(Str, Columns(g)))
  }

  /** The whole output for a list of GPUs: one line each, each ending in "\n". */
  function RenderSmi(gs: seq<Gpu>): string {
    if gs == [] then "" else Join("\n", Map(CsvLine, gs)) + "\n"
  }

  lemma StrShape(n: int)
    ensures ',' !in Str(n)
    ensures NoBreak(Str(n)) && Stripped(Str(n))
  {
    var s := Str(n);
    assert forall i :: 0 <= i < |s| ==> s[i] != ',' && !IsLineBreak(s[i]);
  }

  /** The fields of a rendered line are the decimal texts of the values. */
  lemma CsvLineFields(g: Gpu)
    ensures Fields(CsvLine(g)) == Map(Str, Columns(g))
  {
    var texts := Map(Str, Columns(g));
    forall k | 0 <= k < |texts|
      ensures Stripped(texts[k]) && ',' !in texts[k]
    {
      StrShape(Columns(g)[k]);
    }
    StripSplitCommaSpace(texts);
  }

  /** A rendered line is kept and decodes to the GPU it was rendered from. */
  lemma LineStepCsv(g: Gpu)
    ensures LineStep(CsvLine(g)) == Keep(g)
  {
    CsvLineFields(g);
    var fs := Fields(CsvLine(g));
    var vs := Columns(g);
    forall k | 0 <= k < 4
      ensures ParseInt(fs[k]) == Some(vs[k])
    {
      ParseStr(vs[k]);
    }
    DecodeFieldsOk(fs, vs);
  }

  /** A rendered line has no line boundary, and neither end is whitespace. */
  lemma CsvLineShape(g: Gpu)
    ensures NoBreak(CsvLine(g)) && Stripped(CsvLine(g)) && CsvLine(g) != []
  {
    var vs := Columns(g);
    var texts := Map(Str, vs);
    forall k | 0 <= k < 4
      ensures NoBreak(texts[k]) && Stripped(texts[k]) && texts[k] != []
    {
      StrShape(vs[k]);
    }
    JoinNoBreak(", ", texts);
    JoinEnds(", ", texts);
  }

  /** Parsing what `nvidia-smi` would print for `gs` gives `gs` back. */
  lemma ParseRendered(gs: seq<Gpu>)
    ensures ParseSmi(RenderSmi(gs)) == Ok(gs)
  {
    if gs == [] {
      assert Strip("") == "";
    } else {
      var lines := Map(CsvLine, gs);
      RenderedLines(gs);
      assert ParseSmi(RenderSmi(gs)) == ParseLines(lines);
      ParseRenderedLines(gs, lines);
    }
  }

  lemma ParseRenderedLines(gs: seq<Gpu>, lines: seq<string>)
    requires lines == Map(CsvLine, gs)
    ensures ParseLines(lines) == Ok(gs)
  {
    forall k | 0 <= k < |lines|
      ensures LineStep(lines[k]) == Keep(gs[k])
    {
      LineStepCsv(gs[k]);
    }
    CollectAllKept(lines, LineStep, gs);
  }

  /** The lines of rendered output are the rendered lines. */
  lemma RenderedLines(gs: seq<Gpu>)
    requires gs != []
    ensures SmiLines(RenderSmi(gs)) == Map(CsvLine, gs)
  {
    var lines := Map(CsvLine, gs);
    forall k | 0 <= k < |lines|
      ensures NoBreak(lines[k]) && Stripped(lines[k])
    {
      CsvLineShape(gs[k]);
    }
    CsvLineShape(gs[|gs| - 1]);
    StripRendered(gs);
    SplitLinesJoin(lines);
  }

  lemma StripRendered(gs: seq<Gpu>)
    requires gs != []
    ensures Strip(RenderSmi(gs)) == Join("\n", Map(CsvLine, gs))
  {
    var lines := Map(CsvLine, gs);
    CsvLineShape(gs[0]);
    CsvLineShape(gs[|gs| - 1]);
    JoinStripped("\n", lines);
    StripLineEnd(Join("\n", lines));
  }
}

=== FILE: text.dfy ===
/** The two string operations the parser applies before looking at fields:
    Python's `str.strip()` (whitespace trimming) and `str.splitlines()`
    (line splitting).  Characters are compared by code point. */
module Text {

  import opened Seqs

  /** Python's whitespace test used by `str.strip()` with no argument. */
  predicate IsSpace(c: char) {
    var n := c as int;
    || 0x09 <= n <= 0x0D
    || 0x1C <= n <= 0x20
    || n == 0x85 || n == 0xA0 || n == 0x1680
    || 0x2000 <= n <= 0x200A
    || n == 0x2028 || n == 0x2029 || n == 0x202F || n == 0x205F || n == 0x3000
  }

  /** The line boundaries recognised by `str.splitlines()`. */
  predicate IsLineBreak(c: char) {
    var n := c as int;
    || 0x0A <= n <= 0x0D
    || 0x1C <= n <= 0x1E
    || n == 0x85 || n == 0x2028 || n == 0x2029
  }

  ghost predicate AllSpace(s: string) {
    forall i :: 0 <= i < |s| ==> IsSpace(s[i])
  }

  ghost predicate NoBreak(s: string) {
    forall i :: 0 <= i < |s| ==> !IsLineBreak(s[i])
  }

  /** Neither end of `s` is whitespace: what `str.strip()` leaves behind. */
  predicate Stripped(s: string) {
    s == [] || (!IsSpace(s[0]) && !IsSpace(s[|s| - 1]))
  }

  /** `s` with leading whitespace removed: a suffix of `s`. */
  function TrimStart(s: string): (r: string)
    ensures |r| <= |s|
    ensures r == s[|s| - |r|..]
    ensures AllSpace(s[..|s| - |r|])
    ensures r == [] || !IsSpace(r[0])
    decreases |s|
  {
    if s != [] && IsSpace(s[0]) then TrimStart(s[1..]) else s
  }

  /** `s` with trailing whitespace removed: a prefix of `s`. */
  function TrimEnd(s: string): (r: string)
    ensures |r| <= |s|
    ensures r == s[..|r|]
    ensures AllSpace(s[|r|..])
    ensures r == [] || !IsSpace(r[|r| - 1])
    decreases |s|
  {
    if s != [] && IsSpace(s[|s| - 1]) then
      var r := TrimEnd(s[..|s| - 1]);
      assert s[|r|..] == s[..|s| - 1][|r|..] + [s[|s| - 1]];
      r
    else s
  }

  /** Where the stripped text starts inside `s`. */
  function StripOffset(s: string): nat {
    |s| - |TrimStart(s)|
  }

  /** Python's `s.strip()`: no whitespace left at either end
      (`StripKeepsInfix` says what it removes). */
  function Strip(s: string): (r: string)
    ensures |r| <= |s|
    ensures Stripped(r)
  {
    var t := TrimStart(s);
    var r := TrimEnd(t);
    assert r == [] || r[0] == t[0];
    r
  }

  /** What `Strip` keeps is the infix of `s` that begins at `StripOffset(s)`,
      and what it removes on either side is whitespace only. */
  lemma StripKeepsInfix(s: string)
    ensures var off, r := StripOffset(s), Strip(s);
      && off + |r| <= |s|
      && r == s[off..off + |r|]
      && AllSpace(s[..off]) && AllSpace(s[off + |r|..])
  {
    var t := TrimStart(s);
    var r := TrimEnd(t);
    assert s[StripOffset(s) + |r|..] == t[|r|..];
  }

  /** Leading whitespace makes no difference to `TrimStart`. */
  lemma {:induction false} TrimStartSkips(ws: string, s: string)
    requires AllSpace(ws)
    ensures TrimStart(ws + s) == TrimStart(s)
    decreases |ws|
  {
    if ws != [] {
      assert (ws + s)[0] == ws[0];
      assert (ws + s)[1..] == ws[1..] + s;
      TrimStartSkips(ws[1..], s);
    } else {
      assert ws + s == s;
    }
  }

  /** Trailing whitespace makes no difference to `TrimEnd`. */
  lemma {:induction false} TrimEndSkips(s: string, ws: string)
    requires AllSpace(ws)
    ensures TrimEnd(s + ws) == TrimEnd(s)
    decreases |ws|
  {
    if ws != [] {
      var ws' := ws[..|ws| - 1];
      assert (s + ws)[|s + ws| - 1] == ws[|ws| - 1];
      assert (s + ws)[..|s + ws| - 1] == s + ws';
      TrimEndSkips(s, ws');
    } else {
      assert s + ws == s;
    }
  }

  /** Stripping whitespace padding gives back a text that was already stripped. */
  lemma StripPadded(left: string, s: string, right: string)
    requires AllSpace(left) && AllSpace(right) && Stripped(s)
    ensures Strip(left + s + right) == s
  {
    assert left + s + right == left + (s + right);
    TrimStartSkips(left, s + right);
    if s == [] {
      assert TrimStart(right) == [] by {
        TrimStartSkips(right, []);
        assert right + [] == right;
      }
    } else {
      assert TrimStart(s + right) == s + right;
      TrimEndSkips(s, right);
    }
  }

  /** A join whose outer parts are stripped and non-empty is stripped. */
  lemma JoinStripped(sep: string, parts: seq<string>)
    requires |parts| > 0 && parts[0] != [] && parts[|parts| - 1] != []
    requires Stripped(parts[0]) && Stripped(parts[|parts| - 1])
    ensures Stripped(Join(sep, parts))
  {
    JoinEnds(sep, parts);
  }

  /** Stripping removes a final line terminator and nothing else. */
  lemma StripLineEnd(s: string)
    requires Stripped(s)
    ensures Strip(s + "\n") == s
  {
    assert AllSpace("\n");
    StripPadded([], s, "\n");
    assert [] + s + "\n" == s + "\n";
  }

  /** A stripped text is its own strip. */
  lemma StripFixed(s: string)
    requires Stripped(s)
    ensures Strip(s) == s
  {
    StripPadded([], s, []);
    assert [] + s + [] == s;
  }

  /** Where the first line boundary of `s` is, or `|s|` when there is none. */
  function FirstBreak(s: string): (i: nat)
    ensures i <= |s|
    ensures NoBreak(s[..i])
    ensures i < |s| ==> IsLineBreak(s[i])
    decreases |s|
  {
    if s == [] || IsLineBreak(s[0]) then 0
    else
      var j := FirstBreak(s[1..]);
      assert s[..j + 1] == [s[0]] + s[1..][..j];
      j + 1
  }

  /** Python's `s.splitlines()`: lines without their terminators, where
      "\r\n" is one terminator and a final terminator opens no empty line. */
  function SplitLines(s: string): (lines: seq<string>)
    ensures forall k :: 0 <= k < |lines| ==> NoBreak(lines[k])
    ensures |lines| <= |s|
    decreases |s|
  {
    if s == [] then []
    else
      var i := FirstBreak(s);
      if i == |s| then
        assert s[..i] == s;
        [s]
      else
        var next := if s[i] == '\r' && i + 1 < |s| && s[i + 1] == '\n' then i + 2 else i + 1;
        [s[..i]] + SplitLines(s[next..])
  }

  lemma {:induction false} FirstBreakAfter(p: string, c: char, t: string)
    requires NoBreak(p) && IsLineBreak(c)
    ensures FirstBreak(p + [c] + t) == |p|
    decreases |p|
  {
    if p != [] {
      assert (p + [c] + t)[1..] == p[1..] + [c] + t;
      FirstBreakAfter(p[1..], c, t);
    }
  }

  /** Splitting lines joined by "\n" gives the lines back, provided no line
      holds a boundary and the last line is not empty. */
  lemma {:induction false} SplitLinesJoin(lines: seq<string>)
    requires |lines| > 0 && lines[|lines| - 1] != []
    requires forall k :: 0 <= k < |lines| ==> NoBreak(lines[k])
    ensures SplitLines(Join("\n", lines)) == lines
    decreases |lines|
  {
    var s := Join("\n", lines);
    var p := lines[0];
    if |lines| == 1 {
      assert s == p;
      assert FirstBreak(s) == |s| by {
        FirstBreakOfPlain(s);
      }
      assert s[..|s|] == s;
    } else {
      var tail := Join("\n", lines[1..]);
      assert s == p + "\n" + tail;
      FirstBreakAfter(p, '\n', tail);
      assert s[..|p|] == p;
      assert s[|p| + 1..] == tail;
      if |p| > 0 {
        assert s[|p| - 1] == p[|p| - 1];
      }
      SplitLinesJoin(lines[1..]);
      assert lines == [p] + lines[1..];
    }
  }

  lemma FirstBreakOfPlain(s: string)
    requires NoBreak(s)
    ensures FirstBreak(s) == |s|
  {
    var i := FirstBreak(s);
    if i < |s| {
      assert false;
    }
  }

  lemma NoBreakConcat(a: string, b: string)
    requires NoBreak(a) && NoBreak(b)
    ensures NoBreak(a + b)
  {
    forall i | 0 <= i < |a + b|
      ensures !IsLineBreak((a + b)[i])
    {
      if i < |a| {
        assert (a + b)[i] == a[i];
      } else {
        assert (a + b)[i] == b[i - |a|];
      }
    }
  }

  /** Joining boundary-free parts with a boundary-free separator gives a single line. */
  lemma {:induction false} JoinNoBreak(sep: string, parts: seq<string>)
    requires NoBreak(sep)
    requires forall k :: 0 <= k < |parts| ==> NoBreak(parts[k])
    ensures NoBreak(Join(sep, parts))
    decreases |parts|
  {
    if |parts| > 1 {
      JoinNoBreak(sep, parts[1..]);
      NoBreakConcat(parts[0], sep);
      NoBreakConcat(parts[0] + sep, Join(sep, parts[1..]));
    }
  }

  // ---- Fields joined by ", " ------------------------------------------------

  function Pad(s: string): string {
    " " + s
  }

  /** Joining with ", " is joining with "," the parts after the first padded by a space. */
  lemma {:induction false} JoinCommaSpace(rest: seq<string>)
    requires |rest| > 0
    ensures Join([','], Map(Pad, rest)) == " " + Join(", ", rest)
    decreases |rest|
  {
    var m := Map(Pad, rest);
    if |rest| > 1 {
      assert m[1..] == Map(Pad, rest[1..]);
      JoinCommaSpace(rest[1..]);
    }
  }

  /** The comma-separated pieces of a ", "-joined text: the first part, then
      the others each preceded by the space of the separator. */
  function CommaSpacePieces(parts: seq<string>): seq<string>
    requires parts != []
  {
    [parts[0]] + Map(Pad, parts[1..])
  }

  ghost predicate CleanFields(parts: seq<string>) {
    forall k :: 0 <= k < |parts| ==> Stripped(parts[k]) && ',' !in parts[k]
  }

  lemma JoinAsCommaPieces(parts: seq<string>)
    requires parts != []
    ensures Join(", ", parts) == Join([','], CommaSpacePieces(parts))
  {
    var pieces := CommaSpacePieces(parts);
    if |parts| > 1 {
      var rest := parts[1..];
      JoinCommaSpace(rest);
      assert pieces[1..] == Map(Pad, rest);
      assert Join([','], pieces) == parts[0] + [','] + (" " + Join(", ", rest));
      assert Join(", ", parts) == parts[0] + ", " + Join(", ", rest);
    }
  }

  lemma CommaSpacePiecesClean(parts: seq<string>)
    requires parts != [] && CleanFields(parts)
    ensures forall k :: 0 <= k < |CommaSpacePieces(parts)| ==> ',' !in CommaSpacePieces(parts)[k]
  {
    var pieces := CommaSpacePieces(parts);
    forall k | 0 <= k < |pieces|
      ensures ',' !in pieces[k]
    {
      if k > 0 {
        assert pieces[k] == " " + parts[k];
      }
    }
  }

  lemma SplitCommaSpace(parts: seq<string>)
    requires parts != [] && CleanFields(parts)
    ensures Split(Join(", ", parts), ',') == CommaSpacePieces(parts)
  {
    JoinAsCommaPieces(parts);
    CommaSpacePiecesClean(parts);
    SplitJoin(CommaSpacePieces(parts), ',');
  }

  lemma StripCommaSpacePiece(parts: seq<string>, k: nat)
    requires k < |parts| && CleanFields(parts)
    ensures Strip(CommaSpacePieces(parts)[k]) == parts[k]
  {
    var r := parts[k];
    assert Stripped(r);
    if k == 0 {
      StripFixed(r);
    } else {
      assert CommaSpacePieces(parts)[k] == Pad(r);
      StripPadded(" ", r, []);
      assert " " + r + [] == Pad(r);
    }
  }

  /** Splitting a ", "-joined text on commas and stripping each piece gives
      the parts back, provided none holds a comma or surrounding whitespace. */
  lemma StripSplitCommaSpace(parts: seq<string>)
    requires parts != [] && CleanFields(parts)
    ensures Map(Strip, Split(Join(", ", parts), ',')) == parts
  {
    SplitCommaSpace(parts);
    var pieces := CommaSpacePieces(parts);
    var m := Map(Strip, pieces);
    forall k | 0 <= k < |parts|
      ensures m[k] == parts[k]
    {
      StripCommaSpacePiece(parts, k);
    }
    SameElements(m, parts);
  }
}

=== FILE: watch.dfy ===
/** One check cycle of the monitoring loop in `main`, and a finite run of
    such cycles.  Running `nvidia-smi` and delivering mail are inputs: each
    cycle receives either the command's output or its failure, and whether
    the mail transport would deliver an attempted message. */
module Watch {

  import opened Results
  import opened Telemetry
  import opened Idle
  import opened Alerting
  import opened Loops

  /** The resolved command-line options the loop consults. */
  datatype Config = Config(utilTh: int, memTh: int, once: bool, email: bool, smtp: SmtpSettings)

  /** What running `nvidia-smi` produced: its output, or an exception. */
  datatype Reading = SmiFailed | SmiOutput(text: string)

  /** What became of e-mail in a cycle that raised an alert. */
  datatype EmailAction =
    | EmailDisabled
    | SkippedMissingConfig
    | Attempted(request: EmailRequest, delivered: bool)

  /** An alert: the comma-joined idle ids it reports, and the e-mail outcome. */
  datatype Alert = Alert(idleIds: string, email: EmailAction)

  /** The outcome of one pass through the loop body. */
  datatype CycleResult =
    | TelemetryFailed
    | ParseFailed(error: ParseError)
    | Checked(gpus: seq<Gpu>, idle: seq<Gpu>, alert: Option<Alert>, exit: Option<int>)

  /** How `main` ends: by returning an exit code, or by the `ValueError` of
      the parser escaping it. */
  datatype Termination = Returns(code: int) | Raises(error: ParseError)

  /** A reading that ends the loop whatever the options: `nvidia-smi`
      failed, or its output holds a four-field line that is not all integers. */
  predicate Fatal(reading: Reading) {
    reading.SmiFailed? || ParseSmi(reading.text).Err?
  }

  /** The e-mail part of an alert. */
  function EmailStep(cfg: Config, gpus: seq<Gpu>, idleIds: string, delivered: bool): (e: EmailAction)
    ensures e.EmailDisabled? <==> !cfg.email
    ensures e.Attempted? <==> cfg.email && SmtpComplete(cfg.smtp.host, cfg.smtp.port, cfg.smtp.sender, Recipients(cfg.smtp.to))
    ensures e.Attempted? ==> e.request == PlanEmail(cfg.smtp, gpus, idleIds).request && e.delivered == delivered
  {
    if !cfg.email then EmailDisabled
    else
      match PlanEmail(cfg.smtp, gpus, idleIds)
      case SkipMissingConfig => SkippedMissingConfig
      case Send(request) => Attempted(request, delivered)
  }

  /** The body of the `while True` loop.
      - A failed `nvidia-smi` ends the cycle before anything is classified.
      - A parse error ends it too.
      - Otherwise the idle GPUs are the idle subsequence of the parsed ones;
        an alert is raised exactly when one of them is idle, and it reports
        their ids in order.
      - Mail is attempted only inside an alert, only with e-mail enabled and
        a complete SMTP configuration.
      - With `--once` the cycle exits with 0 after an alert and 1 without;
        otherwise it sleeps and polls again. */
  function RunCycle(cfg: Config, reading: Reading, delivered: bool): (r: CycleResult)
    ensures r.TelemetryFailed? <==> reading.SmiFailed?
    ensures r.ParseFailed? <==> reading.SmiOutput? && ParseSmi(reading.text).Err?
    ensures r.ParseFailed? ==> r.error == ParseSmi(reading.text).error
    ensures r.Checked? ==> && ParseSmi(reading.text) == Ok(r.gpus)
                           && r.idle == IdleGpus(r.gpus, cfg.utilTh, cfg.memTh)
    ensures r.Checked? ==> (r.alert.Some? <==> r.idle != [])
    ensures r.Checked? && r.alert.Some? ==> r.alert.value.idleIds == IdleIds(r.idle)
    ensures r.Checked? && r.alert.Some? ==> r.alert.value.email == EmailStep(cfg, r.gpus, IdleIds(r.idle), delivered)
    ensures r.Checked? && r.alert.Some? && r.alert.value.email.Attempted? ==>
              && cfg.email
              && SmtpComplete(cfg.smtp.host, cfg.smtp.port, cfg.smtp.sender, Recipients(cfg.smtp.to))
              && r.alert.value.email.request.subject == "GPU idle alert: " + IdleIds(r.idle)
    ensures r.Checked? ==> r.exit == (if !cfg.once then None else if r.alert.Some? then Some(0) else Some(1))
  {
    match reading
    case SmiFailed => TelemetryFailed
    case SmiOutput(text) =>
      match ParseSmi(text)
      case Err(e) => ParseFailed(e)
      case Ok(gpus) =>
        var idle := IdleGpus(gpus, cfg.utilTh, cfg.memTh);
        if idle != [] then
          var ids := IdleIds(idle);
          Checked(gpus, idle, Some(Alert(ids, EmailStep(cfg, gpus, ids, delivered))), if cfg.once then Some(0) else None)
        else
          Checked(gpus, idle, None, if cfg.once then Some(1) else None)
  }

  /** An alert is raised exactly when some parsed GPU is idle. */
  lemma AlertIffSomeIdle(cfg: Config, reading: Reading, delivered: bool)
    requires RunCycle(cfg, reading, delivered).Checked?
    ensures var r := RunCycle(cfg, reading, delivered);
      r.alert.Some? <==> exists i :: 0 <= i < |r.gpus| && IsIdle(r.gpus[i], cfg.utilTh, cfg.memTh)
  {
    var r := RunCycle(cfg, reading, delivered);
    SomeIdleIff(r.gpus, cfg.utilTh, cfg.memTh);
  }

  /** Whether, and how, `main` ends after this cycle. */
  function Ending(r: CycleResult): Option<Termination> {
    match r
    case TelemetryFailed => Some(Returns(2))
    case ParseFailed(e) => Some(Raises(e))
    case Checked(_, _, _, exit) => if exit.Some? then Some(Returns(exit.value)) else None
  }

  /** The exit codes of `--once`: 2 when `nvidia-smi` fails, 0 when the
      output parses and some GPU is idle, 1 when it parses and none is; a
      parse error escapes as an exception. */
  lemma OnceExitCodes(cfg: Config, reading: Reading, delivered: bool)
    requires cfg.once
    ensures var end := Ending(RunCycle(cfg, reading, delivered));
      && end.Some?
      && (reading.SmiFailed? ==> end == Some(Returns(2)))
      && (reading.SmiOutput? && ParseSmi(reading.text).Err? ==> end == Some(Raises(ParseSmi(reading.text).error)))
      && (reading.SmiOutput? && ParseSmi(reading.text).Ok? ==>
            var gpus := ParseSmi(reading.text).value;
            && (end == Some(Returns(0)) <==> exists i :: 0 <= i < |gpus| && IsIdle(gpus[i], cfg.utilTh, cfg.memTh))
            && (end == Some(Returns(1)) <==> forall i :: 0 <= i < |gpus| ==> !IsIdle(gpus[i], cfg.utilTh, cfg.memTh)))
  {
    if RunCycle(cfg, reading, delivered).Checked? {
      AlertIffSomeIdle(cfg, reading, delivered);
    }
  }

  /** Without `--once` only a fatal reading ends the loop. */
  lemma ContinuousEndsOnlyOnFatal(cfg: Config, reading: Reading, delivered: bool)
    requires !cfg.once
    ensures Ending(RunCycle(cfg, reading, delivered)).Some? <==> Fatal(reading)
  {
  }

  /** Whether mail is delivered changes nothing but the delivery flag: not
      the classification, not the alert, and not how `main` ends. */
  lemma DeliveryIrrelevant(cfg: Config, reading: Reading)
    ensures var a, b := RunCycle(cfg, reading, true), RunCycle(cfg, reading, false);
      && Ending(a) == Ending(b)
      && a.Checked? == b.Checked?
      && (a.Checked? ==> a.gpus == b.gpus && a.idle == b.idle && a.exit == b.exit
                         && a.alert.Some? == b.alert.Some?)
  {
  }

  /** The inputs of one pass through the loop. */
  datatype Poll = Poll(reading: Reading, delivered: bool)

  function CycleOf(cfg: Config): Poll -> CycleResult {
    (p: Poll) => RunCycle(cfg, p.reading, p.delivered)
  }

  /** The loop of `main` over a finite series of polls.  Every cycle depends
      on its own poll only, cycles run until one ends `main` or the polls run
      out; with `--once` exactly one cycle runs, and without it the loop ends
      exactly at the first fatal reading. */
  method Monitor(cfg: Config, polls: seq<Poll>) returns (results: seq<CycleResult>, ending: Option<Termination>)
    ensures |results| <= |polls|
    ensures forall k :: 0 <= k < |results| ==> results[k] == RunCycle(cfg, polls[k].reading, polls[k].delivered)
    ensures forall k :: 0 <= k < |results| - 1 ==> Ending(results[k]).None?
    ensures ending.Some? ==> |results| > 0 && ending == Ending(results[|results| - 1])
    ensures ending.None? ==> |results| == |polls|
    ensures cfg.once && |polls| > 0 ==> |results| == 1 && ending.Some?
    ensures !cfg.once ==> (ending.Some? <==> exists k :: 0 <= k < |polls| && Fatal(polls[k].reading))
  {
    results, ending := RunUntil(polls, CycleOf(cfg), Ending);
    if cfg.once && |polls| > 0 {
      OnceEnds(cfg, polls[0]);
    }
    if !cfg.once {
      forall k | 0 <= k < |results|
        ensures Ending(results[k]).Some? <==> Fatal(polls[k].reading)
      {
        ContinuousEndsOnlyOnFatal(cfg, polls[k].reading, polls[k].delivered);
      }
      StopsAtFirstFatal(polls, results, ending);
    }
  }

  /** A run that stops exactly on fatal readings ends exactly when one of
      the polls is fatal. */
  lemma StopsAtFirstFatal(polls: seq<Poll>, results: seq<CycleResult>, ending: Option<Termination>)
    requires |results| <= |polls|
    requires forall k :: 0 <= k < |results| ==> (Ending(results[k]).Some? <==> Fatal(polls[k].reading))
    requires ending.Some? ==> |results| > 0 && ending == Ending(results[|results| - 1])
    requires ending.None? ==> |results| == |polls| && forall k :: 0 <= k < |results| ==> Ending(results[k]).None?
    ensures ending.Some? <==> exists k :: 0 <= k < |polls| && Fatal(polls[k].reading)
  {
    if ending.Some? {
      assert Fatal(polls[|results| - 1].reading);
    }
  }

  lemma OnceEnds(cfg: Config, p: Poll)
    requires cfg.once
    ensures Ending(RunCycle(cfg, p.reading, p.delivered)).Some?
  {
    OnceExitCodes(cfg, p.reading, p.delivered);
  }
}
